=== FILE: README.md ===
# flysystem-upyun: a Dafny model of the adapter's own logic

`UpyunAdapter` binds Upyun object storage to the League Flysystem interface.
Almost every method forwards one call to the Upyun SDK. This project models the
part of the class that has behaviour of its own, and proves what it promises:

- **URL composition.** `normalizeHost` gives the configured serving domain a
  scheme (the configured protocol, unless the domain already starts with
  `http://` or `https://` in any letter case). It then replaces all trailing
  slashes with exactly one. `getUrl` appends the object path to that base
  verbatim (`Url` module).
- **Listing.** Each listed entry's path is `ltrim(directory . '/' . name, '/')`.
  `listContents` yields one record per entry of a single response page and
  ignores its `deep` flag. A failed listing request raises before anything is
  yielded; a failed type lookup raises after the earlier records were yielded
  (`Listing` module).
- **Metadata.** `getMetadata` shapes the SDK's info response into a
  `FileAttributes` record. The size header goes through PHP `intval`, modelled
  on decimal text: values beyond the 64-bit range are capped to it, and values
  too large for a double read as 0 (`PhpInt`). `visibility`, `mimeType`,
  `lastModified` and `fileSize` all return that same record (`Metadata` module).
- **Store operations.** The storage service is replaced by a map from path to
  content. Each request either reaches the service or fails on the way, as the
  caller chooses (`Network`). The adapter's own logic here is small:
  - `rename` is a copy followed by a delete, and is not atomic.
  - `fileExists` and `directoryExists` are the same check.
  - `getVisibility` is constantly true, and `setVisibility` does nothing
    (`Store` module).

`Text` holds the string primitives with PHP's meaning: ASCII case folding for
`stripos`, and `rtrim`/`ltrim` with a one-character mask. Each trim function's
contract characterises its result completely; `TrimTrailingUnique` and
`TrimLeadingUnique` prove this. `Wrappers` holds `Option` (PHP `null`) and
`Result` (a call that may raise).

Three facts about the code shape the model:
- The configured protocol may be any string; `normalizeHost` prefixes it as given.
- `normalizeHost` is idempotent only under the conditions `Url.Idempotence`
  states. `EmptyDomainNotIdempotent` and `ForeignProtocolRepeats` are
  counterexamples.
- `ltrim` removes every leading slash of the joined listing path, not just one.

## Model

| member | source | states |
|---|---|---|
| `Url.NormalizeHost` | src/UpyunAdapter.php:311-318 | The result ends in exactly one `/`. A domain with its own `http(s)://` scheme (any letter case) keeps it and only has its trailing slashes normalised. A domain without one becomes `protocol://` + the domain without trailing slashes + `/`. A domain of only slashes, or an empty one, becomes `protocol:/`. |
| `Url.HostKeepsColon` | src/UpyunAdapter.php:313-317 | The text before the final slash always contains the scheme's `:`. So it is never empty and never ends in `/`. |
| `Url.SchemedDomainKeepsPrefix` | src/UpyunAdapter.php:313-317 | If a domain has a scheme and something other than slashes after it, the result keeps the domain's own prefix character for character. The result is recognised as schemed, and it is the same under every configured protocol. |
| `Url.SchemedHostIsFixed` | src/UpyunAdapter.php:313-317 | A string that already has a scheme and ends in exactly one slash is returned unchanged. |
| `Url.ReapplyPrefixes` | src/UpyunAdapter.php:313-317 | A string ending in one slash without a recognised scheme gets `protocol://` prefixed once more, and nothing else changes. |
| `Url.IdempotentIffSchemed` | src/UpyunAdapter.php:311-318 | Normalising twice equals normalising once exactly when the first result has a recognised scheme. This holds for every protocol and every domain. |
| `Url.IdempotentSchemedDomain` | src/UpyunAdapter.php:311-318 | For a domain with its own scheme, normalising is idempotent if and only if some character other than `/` follows the scheme. |
| `Url.IdempotentPlainDomain` | src/UpyunAdapter.php:311-318 | For a domain without a scheme, under protocol `http` or `https` in any case, normalising is idempotent if and only if the domain has a character other than `/`. |
| `Url.Idempotence` | src/UpyunAdapter.php:311-318 | Under protocol `http` or `https` (any case), normalising is idempotent exactly when the domain has a character other than `/` after any scheme it carries. |
| `Url.EmptyDomainNotIdempotent` | src/UpyunAdapter.php:311-318 | With protocol `http`, the empty domain gives `http:/`, and a second application gives `http://http:/`. |
| `Url.ForeignProtocolRepeats` | src/UpyunAdapter.php:313-314 | With protocol `ftp`, `example.com` gives `ftp://example.com/`, and a second application prefixes `ftp://` again. |
| `Url.GetUrl` | src/UpyunAdapter.php:272-275 | The URL ends with the path exactly as given. Before the path is exactly the normalised host for the configured protocol and domain, which ends in exactly one `/`. A path that starts with `/` therefore produces `//` at the join. |
| `Url.GetUrlCases` | src/UpyunAdapter.php:272-275 | For every configuration and path: a schemed domain gives the domain without trailing slashes, `/`, then the path. Any other domain with a character other than `/` gives `protocol://`, that domain without trailing slashes, `/`, then the path. A domain of slashes only gives `protocol:/` followed by the path. |
| `Url.GetUrlInjective` | src/UpyunAdapter.php:274 | For a fixed configuration, two paths give the same URL only if they are equal: the path can be recovered from the URL. |
| `Url.GetUrlExample` | src/UpyunAdapter.php:272-275 | Domain `example.com`, protocol `https` and path `a/b.txt` give `https://example.com/a/b.txt`. |
| `Url.NewConfig` | src/UpyunAdapter.php:49-56 | The constructor stores its arguments unchanged. An omitted protocol is `http`. |
| `Text.Lower` | src/UpyunAdapter.php:313 | The case folding used by the prefix test maps `A`-`Z` to `a`-`z` and leaves every other character alone. |
| `Text.TrimTrailing` | src/UpyunAdapter.php:317 | `rtrim(s, '/')` is the prefix of `s` followed only by `/` that does not itself end in `/`. |
| `Text.TrimTrailingUnique` | src/UpyunAdapter.php:317 | Any prefix with those three properties is the `rtrim` result, so the contract pins the function down. |
| `Text.TrimLeading` | src/UpyunAdapter.php:297 | `ltrim(s, '/')` is the suffix of `s` preceded only by `/` that does not itself start with `/`. |
| `Text.TrimLeadingUnique` | src/UpyunAdapter.php:297 | Any suffix with those three properties is the `ltrim` result. |
| `Listing.EntryPath` | src/UpyunAdapter.php:297 | The joined path never starts with `/`. If the directory has a character other than `/`, the path is the directory without leading slashes, then `/`, then the name verbatim. Otherwise it is the name without its leading slashes. |
| `Listing.EntryPathAtRoot` | src/UpyunAdapter.php:297 | With an empty directory, the path is the name with its leading slashes removed. A name not starting with `/` is kept as is. |
| `Listing.NormalizeFileInfo` | src/UpyunAdapter.php:295-305 | The record is built exactly when the type lookup for the joined path succeeds; otherwise the lookup's error is raised. A record has the joined path, which never starts with `/`. Its type is the one reported for that path, and its timestamp and size are copied from the raw entry. |
| `Listing.YieldUntilError` | src/UpyunAdapter.php:195-197 | The generator's loop yields each entry's record in order. It either finishes with one record per entry, or stops at the first entry whose record raises, with that entry's error. |
| `Listing.ListContents` | src/UpyunAdapter.php:190-198 | A failed listing request raises its error and yields nothing. Otherwise each yielded record is the normalised info of the entry at the same position. The listing either covers every entry, or stops at the first entry whose type lookup raises, with that error. No listed path starts with `/`. |
| `Listing.CompleteIffEveryLookupSucceeds` | src/UpyunAdapter.php:195-197 | A listing of a response finishes without error if and only if the type lookup succeeds for every listed path. |
| `Listing.YieldAllRecords` | src/UpyunAdapter.php:195-197 | When every entry yields a record, the loop yields exactly those records and raises nothing. |
| `Listing.YieldedBeforeFailure` | src/UpyunAdapter.php:195-197 | The records yielded before an error are exactly the complete listing of the entries before the failing one. |
| `Listing.DeepIsIgnored` | src/UpyunAdapter.php:190-198 | A deep listing equals a shallow one, errors included: subdirectories are never descended into. |
| `PhpInt.IntVal` | src/UpyunAdapter.php:209 | `intval` of a string is always within the 64-bit range. |
| `PhpInt.Saturate` | src/UpyunAdapter.php:209 | A number within the 64-bit range is kept. Beyond it, one of magnitude below 2^1024 - 2^970 (a finite double) is capped to the nearer bound, `PHP_INT_MAX` or `PHP_INT_MIN`. One of magnitude 2^1024 - 2^970 or more (an infinite double) gives 0. The result always lies in the 64-bit range. |
| `PhpInt.IntValRoundTrip` | src/UpyunAdapter.php:209 | `intval` reads back the decimal text of every 64-bit integer, whatever non-digit text follows it. |
| `PhpInt.IntValSaturates` | src/UpyunAdapter.php:209 | Decimal text of a number above `PHP_INT_MAX`, but below 2^1024 - 2^970 (where a double overflows), reads as `PHP_INT_MAX`. |
| `PhpInt.IntValSaturatesBelow` | src/UpyunAdapter.php:209 | `-` followed by the decimal text of a number whose negation is below `PHP_INT_MIN`, but within the range of a double, reads as `PHP_INT_MIN`. |
| `PhpInt.IntValBeyondDouble` | src/UpyunAdapter.php:209 | Decimal text of a number of at least 2^1024 - 2^970, with or without a `-` and followed by any non-digit text, reads as 0: the double is infinite and the cap gives 0. |
| `PhpInt.SkipSpacePrefix` | src/UpyunAdapter.php:209 | Any amount of leading white space is skipped entirely before the number is read. |
| `PhpInt.IntValSkipsSpace` | src/UpyunAdapter.php:209 | Leading white space does not change what `intval` reads. |
| `PhpInt.DigitsValueLeadingZeros` | src/UpyunAdapter.php:209 | Zeros in front of a run of digits do not change the number it denotes. |
| `PhpInt.IntValLeadingZeros` | src/UpyunAdapter.php:209 | A non-negative 64-bit number padded with leading zeros, and followed by any non-digit text, reads as the number itself. |
| `PhpInt.IntValPlusSign` | src/UpyunAdapter.php:209 | `+` followed by the decimal text of a non-negative 64-bit number, and any non-digit text, reads as that number. |
| `PhpInt.IntValNonNumeric` | src/UpyunAdapter.php:209 | A string with no sign or digit after its leading white space reads as 0. |
| `Metadata.Attributes` | src/UpyunAdapter.php:207-213 | The `FileAttributes` record stores the path without its leading slashes, and every other field exactly as given. |
| `Metadata.GetMetadata` | src/UpyunAdapter.php:204-214 | The record's path is the queried path without its leading slashes, as the `FileAttributes` constructor stores it, and its visibility and MIME type are null. The size is null exactly when the size header is unset, and otherwise lies in the 64-bit range. The time is null exactly when there is no `Last-Modified` value; a value the date parser rejects gives 0. |
| `Metadata.RecordPathIsRelative` | src/UpyunAdapter.php:207-208 | A path without a leading slash is the record's path unchanged. The same path with any number of leading slashes gives the very same record. |
| `Metadata.SizeRoundTrip` | src/UpyunAdapter.php:209 | A size header holding the decimal text of a 64-bit `n`, with any white space before it and any non-digit text after it, gives size `n`. |
| `Metadata.LastModifiedFromFirstValue` | src/UpyunAdapter.php:211 | The time is the parse of the first `Last-Modified` value; later values play no part. |
| `Metadata.Visibility` | src/UpyunAdapter.php:365-368 | It returns the metadata record for the path (without leading slashes), whose visibility is null. |
| `Metadata.MimeType` | src/UpyunAdapter.php:374-377 | It returns the metadata record for the path (without leading slashes), whose MIME type is null. |
| `Metadata.LastModified` | src/UpyunAdapter.php:383-386 | It returns the metadata record for the path (without leading slashes); the time is null exactly when there is no `Last-Modified` value. |
| `Metadata.FileSize` | src/UpyunAdapter.php:392-395 | It returns the metadata record for the path (without leading slashes); the size is null exactly when the size header is unset. |
| `Metadata.AttributeQueriesAgree` | src/UpyunAdapter.php:361-395 | `visibility`, `mimeType`, `lastModified` and `fileSize` all return the same record as `getMetadata`. |
| `Store.Copy` | src/UpyunAdapter.php:114-117 | The copy succeeds exactly when the request gets through and the source exists. On success, the destination holds the source's content and nothing else changes. On failure, nothing changes. |
| `Store.Delete` | src/UpyunAdapter.php:123-126 | The delete succeeds exactly when the request gets through and the path exists. On success, the path is gone and nothing else changes. On failure, nothing changes. |
| `Store.Rename` | src/UpyunAdapter.php:107-111 | The rename succeeds exactly when both requests get through and the source exists. Paths other than the source and the destination never change. |
| `Store.RenameMovesContent` | src/UpyunAdapter.php:107-111 | Between distinct paths with both requests succeeding: the destination gets the source's old content and the source is gone. Every other path is unchanged. |
| `Store.RenamePartialFailure` | src/UpyunAdapter.php:107-111 | If the delete fails after the copy, the delete's error is raised. The content is then at both the source and the destination. |
| `Store.RenameCopyFailure` | src/UpyunAdapter.php:107-111 | If the copy fails, no delete is sent and the bucket is unchanged. |
| `Store.RenameOntoItselfDeletes` | src/UpyunAdapter.php:107-111 | Renaming a path onto itself succeeds and removes the object. |
| `Store.Move` | src/UpyunAdapter.php:404-407 | The move succeeds exactly when the request gets through and the source exists. The destination gets the source's content, the source is gone when the paths differ, and nothing else changes. |
| `Store.RenameAgreesWithMove` | src/UpyunAdapter.php:107-111 | Between distinct paths with every request succeeding, `rename` leaves the bucket exactly as `move` does. |
| `Store.Write` | src/UpyunAdapter.php:64-67 | The write succeeds exactly when the request gets through. It then stores the contents at the path and changes nothing else. |
| `Store.Read` | src/UpyunAdapter.php:169-172 | The read succeeds exactly when the request gets through and the path exists. It then returns the stored content; a missing path raises not-found. |
| `Store.ReadAfterWrite` | src/UpyunAdapter.php:64-67 | What is written is read back unchanged. |
| `Store.Has` | src/UpyunAdapter.php:159-162 | When the request gets through, the answer is true exactly when an object exists at the path. |
| `Store.FileExists` | src/UpyunAdapter.php:325-328 | When the request gets through, the answer is whether the path exists. |
| `Store.DirectoryExists` | src/UpyunAdapter.php:335-338 | When the request gets through, the answer is whether the path exists. |
| `Store.ExistenceChecksAgree` | src/UpyunAdapter.php:325-338 | `fileExists`, `directoryExists` and `has` always give the same answer; files and directories are not told apart. |
| `Store.GetVisibility` | src/UpyunAdapter.php:263-266 | Every path is reported visible. |
| `Store.SetVisibility` | src/UpyunAdapter.php:151-154 | No object changes. |
| `Store.SetVisibilityUnobservable` | src/UpyunAdapter.php:151-154 | After `setVisibility`, `getVisibility`, `read` and `has` answer exactly as before, for every path. |

## Left out

- `client()`: it builds the SDK handle, and its TLS flag comes from a global framework setting (`config('filesystems.disks.upyun.protocol')`), not from the adapter. Both are outside the model.
- `readStream` and `getMimetype`: they open the public URL and fetch its headers over the network. Only the URL they use, `getUrl(path)`, is modelled.
- `getType`, `getSize` and `getTimestamp`: they index the `FileAttributes` object by SDK header names it does not carry. Their result depends on the Flysystem library's internals. The listing record's type therefore comes from a caller-supplied lookup (`typeOf`), which may raise.
- `listContents`: the SDK's response shape is not modelled. The model takes the listing request's outcome as either its entries or the error it raised. The lazy generator is modelled by what its consumer sees: the records yielded, then the error, if any. The page size of 100 and the iteration marker are only passed to the SDK, and no further page is requested.
- `Metadata.GetMetadata`: it models only an info request that succeeds. When that request raises, `getMetadata` and the four queries built on it raise the same error and return nothing; the model does not repeat this plain propagation.
- `createDir`, `createDirectory`, `deleteDir` and `deleteDirectory`: they are single SDK calls with no adapter logic, and the map stand-in has no notion of directories.
- `writeStream`, `update` and `updateStream`: they call the same SDK write as `write`, which `Store.Write` stands for.
- The Upyun SDK is replaced by the map stand-in. Copy, delete, read and move fail with not-found on a missing path. Any request can fail through the caller's `Network` argument.
- `Store.Move`'s semantics are those of this stand-in, because the SDK's own move is not visible. It is only compared with `rename` for distinct paths.
- `strtotime` is a parameter (`parseDate`); `None` means it returned `false`. That `false` is coerced to 0 when passed as a nullable integer.
- `Metadata.Info` keeps only the two header values `getMetadata` reads, because the shape of the SDK's info response is not visible.
- `Metadata.Attributes`: League's `FileAttributes` class is not part of this model. The record follows its Flysystem 3 constructor, which stores the path without leading slashes and every other field as given.
- `PhpInt.IntVal`: the rounding of out-of-range text to a double is taken to be correct rounding, as PHP's `zend_strtod` does, so 2^1024 - 2^970 is the least magnitude that overflows. Exponent and fraction forms such as `1e3`, which PHP reads through a float, are not modelled. Such text reads as its leading digits. Sizes sent by the service are plain digits.
- `Text.Lower`: the case-insensitive test uses ASCII case folding, as `stripos` does from PHP 8.2 on. Earlier versions folded case by locale.

=== FILE: listing.dfy ===
/** Directory listing of `UpyunAdapter`: `listContents` reads one page of the
    storage service's listing and turns each raw entry into a listing record via
    `normalizeFileInfo`, whose path is `ltrim(directory . '/' . name, '/')`.
    Both the listing request and the per-entry type lookup may raise; `listContents`
    is a generator, so the records yielded before the error stay yielded. */
module Listing {
  import opened Wrappers
  import opened Text
  import Store

  /** One entry of the storage service's listing response, as the adapter reads it. */
  datatype RawEntry = RawEntry(name: string, time: int, size: int)

  /** The listing record the adapter yields per entry. */
  datatype Entry = Entry(kind: string, path: string, timestamp: int, size: int)

  /** What a consumer of the generator sees: the records yielded, in order, and
      the error raised after them, if any. */
  datatype Listed = Listed(entries: seq<Entry>, error: Option<Store.Failure>)

  /** The path of a listed entry: directory and name joined by `/`, leading slashes removed. */
  function EntryPath(directory: string, name: string): (r: string)
    ensures r == [] || r[0] != '/'
    ensures HasOtherThan(directory, '/') ==> r == TrimLeading(directory, '/') + "/" + name
    ensures !HasOtherThan(directory, '/') ==> r == TrimLeading(name, '/')
  {
    if HasOtherThan(directory, '/') then
      TrimLeadingPrepend(directory, "/" + name, '/');
      assert directory + "/" + name == directory + ("/" + name);
      TrimLeading(directory + "/" + name, '/')
    else
      TrimLeadingAllPrefix(directory + "/", name, '/');
      TrimLeading(directory + "/" + name, '/')
  }

  /** Listing the root: an entry's path is its name with its leading slashes removed. */
  lemma EntryPathAtRoot(name: string)
    ensures EntryPath("", name) == TrimLeading(name, '/')
    ensures |name| > 0 && name[0] != '/' ==> EntryPath("", name) == name
  {
  }

  /** PHP `normalizeFileInfo`: the listing record of one raw entry. Its type is the one
      the metadata lookup `typeOf` reports for the joined path; when that lookup
      raises, so does `normalizeFileInfo`. */
  function NormalizeFileInfo(raw: RawEntry, directory: string, typeOf: string -> Result<string, Store.Failure>): (r: Result<Entry, Store.Failure>)
    ensures r.Ok? <==> typeOf(EntryPath(directory, raw.name)).Ok?
    ensures r.Err? ==> r.error == typeOf(EntryPath(directory, raw.name)).error
    ensures r.Ok? ==> r.value.path == EntryPath(directory, raw.name) && r.value.kind == typeOf(r.value.path).value
    ensures r.Ok? ==> r.value.path == [] || r.value.path[0] != '/'
    ensures r.Ok? ==> r.value.timestamp == raw.time && r.value.size == raw.size
  {
    var path := EntryPath(directory, raw.name);
    match typeOf(path)
    case Ok(kind) => Ok(Entry(kind, path, raw.time, raw.size))
    case Err(e) => Err(e)
  }

  /** The generator's loop over the response entries: each entry's record in turn,
      stopping at the first entry whose record cannot be built. */
  function YieldUntilError(files: seq<RawEntry>, normalize: RawEntry -> Result<Entry, Store.Failure>): (r: Listed)
    ensures |r.entries| <= |files|
    ensures forall i :: 0 <= i < |r.entries| ==> normalize(files[i]) == Ok(r.entries[i])
    ensures r.error.None? ==> |r.entries| == |files|
    ensures r.error.Some? ==> |r.entries| < |files| && normalize(files[|r.entries|]) == Err(r.error.value)
    decreases |files|
  {
    if files == [] then Listed([], None)
    else
      match normalize(files[0])
      case Err(e) => Listed([], Some(e))
      case Ok(entry) =>
        var rest := YieldUntilError(files[1..], normalize);
        assert forall i :: 0 <= i < |rest.entries| ==> files[1..][i] == files[i + 1];
        Listed([entry] + rest.entries, rest.error)
  }

  /** PHP `listContents`: a failed listing request raises before anything is yielded;
      otherwise the records of the response's entries, in order, up to the first
      entry whose type lookup raises. The `deep` flag is accepted but plays no part. */
  function ListContents(directory: string, deep: bool, response: Result<seq<RawEntry>, Store.Failure>,
                        typeOf: string -> Result<string, Store.Failure>): (r: Listed)
    ensures response.Err? ==> r == Listed([], Some(response.error))
    ensures response.Ok? ==> |r.entries| <= |response.value|
    ensures response.Ok? ==> forall i :: 0 <= i < |r.entries| ==>
              NormalizeFileInfo(response.value[i], directory, typeOf) == Ok(r.entries[i])
    ensures response.Ok? && r.error.None? ==> |r.entries| == |response.value|
    ensures response.Ok? && r.error.Some? ==>
              |r.entries| < |response.value|
              && NormalizeFileInfo(response.value[|r.entries|], directory, typeOf) == Err(r.error.value)
    ensures forall i :: 0 <= i < |r.entries| ==> r.entries[i].path == [] || r.entries[i].path[0] != '/'
  {
    match response
    case Err(e) => Listed([], Some(e))
    case Ok(files) => YieldUntilError(files, raw => NormalizeFileInfo(raw, directory, typeOf))
  }

  /** A listing completes without error exactly when the type lookup succeeds for
      every listed path. */
  lemma CompleteIffEveryLookupSucceeds(directory: string, deep: bool, files: seq<RawEntry>,
                                       typeOf: string -> Result<string, Store.Failure>)
    ensures ListContents(directory, deep, Ok(files), typeOf).error.None?
        <==> forall i :: 0 <= i < |files| ==> typeOf(EntryPath(directory, files[i].name)).Ok?
  {
    var r := ListContents(directory, deep, Ok(files), typeOf);
    if r.error.Some? {
      var k := |r.entries|;
      assert typeOf(EntryPath(directory, files[k].name)).Err?;
    } else {
      forall i | 0 <= i < |files|
        ensures typeOf(EntryPath(directory, files[i].name)).Ok?
      {
        assert NormalizeFileInfo(files[i], directory, typeOf).Ok?;
      }
    }
  }

  /** Records that each entry of `files` yields in turn make up the whole of what the loop yields. */
  lemma {:induction false} YieldAllRecords(files: seq<RawEntry>, es: seq<Entry>,
                                           normalize: RawEntry -> Result<Entry, Store.Failure>)
    requires |es| == |files|
    requires forall i :: 0 <= i < |files| ==> normalize(files[i]) == Ok(es[i])
    ensures YieldUntilError(files, normalize) == Listed(es, None)
    decreases |files|
  {
    if files != [] {
      assert normalize(files[0]) == Ok(es[0]);
      YieldAllRecords(files[1..], es[1..], normalize);
      assert es == [es[0]] + es[1..];
    }
  }

  /** The records yielded before an error are exactly the complete listing of the
      entries that precede the failing one. */
  lemma YieldedBeforeFailure(directory: string, deep: bool, files: seq<RawEntry>,
                             typeOf: string -> Result<string, Store.Failure>)
    ensures var r := ListContents(directory, deep, Ok(files), typeOf);
      ListContents(directory, deep, Ok(files[..|r.entries|]), typeOf) == Listed(r.entries, None)
  {
    var r := ListContents(directory, deep, Ok(files), typeOf);
    YieldAllRecords(files[..|r.entries|], r.entries, raw => NormalizeFileInfo(raw, directory, typeOf));
  }

  /** Asking for a deep listing changes nothing: subdirectories are never descended into. */
  lemma DeepIsIgnored(directory: string, response: Result<seq<RawEntry>, Store.Failure>,
                      typeOf: string -> Result<string, Store.Failure>)
    ensures ListContents(directory, true, response, typeOf) == ListContents(directory, false, response, typeOf)
  {
  }
}

=== FILE: metadata.dfy ===
/** Metadata of `UpyunAdapter`: `getMetadata` shapes the storage service's info
    response into League's `FileAttributes` record, and `visibility`, `mimeType`,
    `lastModified` and `fileSize` each return that same record. */
module Metadata {
  import opened Wrappers
  import opened Text
  import opened PhpInt

  /** The two things `getMetadata` reads from the info response: the value of the
      `x-upyun-file-size` header (`None` when it is unset or null) and the list of
      values of the `Last-Modified` header (empty when it is unset). */
  datatype Info = Info(fileSize: Option<string>, lastModified: seq<string>)

  /** League's `FileAttributes`: path, size, visibility, last-modified time, MIME type.
      Its constructor stores the path without leading slashes; build it with `Attributes`. */
  datatype FileAttributes = FileAttributes(
    path: string,
    fileSize: Option<int>,
    visibility: Option<string>,
    lastModified: Option<int>,
    mimeType: Option<string>)

  /** League's `FileAttributes` constructor: the path loses its leading slashes, the
      other fields are stored as given. */
  function Attributes(path: string, fileSize: Option<int>, visibility: Option<string>,
                      lastModified: Option<int>, mimeType: Option<string>): (a: FileAttributes)
    ensures a.path == TrimLeading(path, '/')
    ensures a.fileSize == fileSize && a.visibility == visibility
    ensures a.lastModified == lastModified && a.mimeType == mimeType
  {
    FileAttributes(TrimLeading(path, '/'), fileSize, visibility, lastModified, mimeType)
  }

  /** PHP `getMetadata`. The date parser stands in for `strtotime`, returning `None`
      where `strtotime` returns `false`; that `false`, passed on as a nullable integer,
      becomes 0. The MIME type is read from a variable that is never assigned, so it
      is always null. */
  function GetMetadata(path: string, info: Info, parseDate: string -> Option<int>): (a: FileAttributes)
    ensures a.path == TrimLeading(path, '/')
    ensures a.visibility == None && a.mimeType == None
    ensures a.fileSize.None? <==> info.fileSize.None?
    ensures a.fileSize.Some? ==> IntMin <= a.fileSize.value <= IntMax
    ensures a.lastModified.None? <==> info.lastModified == []
    ensures info.lastModified != [] && parseDate(info.lastModified[0]).None? ==> a.lastModified == Some(0)
  {
    Attributes(
      path,
      if info.fileSize.Some? then Some(IntVal(info.fileSize.value)) else None,
      None,
      if |info.lastModified| > 0 then Some(parseDate(info.lastModified[0]).GetOr(0)) else None,
      None)
  }

  /** The record's path is the queried path with any leading slashes dropped: a
      relative path is kept as it is, and `/a.txt` and `a.txt` give the same record. */
  lemma RecordPathIsRelative(slashes: string, path: string, info: Info, parseDate: string -> Option<int>)
    requires AllAre(slashes, '/')
    requires path == [] || path[0] != '/'
    ensures GetMetadata(path, info, parseDate).path == path
    ensures GetMetadata(slashes + path, info, parseDate) == GetMetadata(path, info, parseDate)
  {
    TrimLeadingUnique(path, '/', path);
    var s := slashes + path;
    assert s[..|s| - |path|] == slashes && s[|s| - |path|..] == path;
    TrimLeadingUnique(s, '/', path);
  }

  /** The size reported for an object is the number written in its size header,
      whatever white space precedes it and whatever non-digit text follows it. */
  lemma SizeRoundTrip(path: string, ws: string, n: int, rest: string, dates: seq<string>, parseDate: string -> Option<int>)
    requires AllSpace(ws) && IntMin <= n <= IntMax
    requires rest == [] || !IsDigit(rest[0])
    ensures GetMetadata(path, Info(Some(ws + DecimalText(n) + rest), dates), parseDate).fileSize == Some(n)
  {
    assert ws + DecimalText(n) + rest == ws + (DecimalText(n) + rest);
    IntValSkipsSpace(ws, DecimalText(n) + rest);
    IntValRoundTrip(n, rest);
  }

  /** The time reported is the parse of the first `Last-Modified` value. */
  lemma LastModifiedFromFirstValue(path: string, size: Option<string>, first: string, later: seq<string>, parseDate: string -> Option<int>, t: int)
    requires parseDate(first) == Some(t)
    ensures GetMetadata(path, Info(size, [first] + later), parseDate).lastModified == Some(t)
  {
  }

  /** PHP `visibility`: the full metadata record. */
  function Visibility(path: string, info: Info, parseDate: string -> Option<int>): (a: FileAttributes)
    ensures a.path == TrimLeading(path, '/') && a.visibility == None
  {
    GetMetadata(path, info, parseDate)
  }

  /** PHP `mimeType`: the full metadata record, whose MIME type is always null. */
  function MimeType(path: string, info: Info, parseDate: string -> Option<int>): (a: FileAttributes)
    ensures a.path == TrimLeading(path, '/') && a.mimeType == None
  {
    GetMetadata(path, info, parseDate)
  }

  /** PHP `lastModified`: the full metadata record. */
  function LastModified(path: string, info: Info, parseDate: string -> Option<int>): (a: FileAttributes)
    ensures a.path == TrimLeading(path, '/') && (a.lastModified.None? <==> info.lastModified == [])
  {
    GetMetadata(path, info, parseDate)
  }

  /** PHP `fileSize`: the full metadata record. */
  function FileSize(path: string, info: Info, parseDate: string -> Option<int>): (a: FileAttributes)
    ensures a.path == TrimLeading(path, '/') && (a.fileSize.None? <==> info.fileSize.None?)
  {
    GetMetadata(path, info, parseDate)
  }

  /** The four single-attribute queries all return one and the same record. */
  lemma AttributeQueriesAgree(path: string, info: Info, parseDate: string -> Option<int>)
    ensures Visibility(path, info, parseDate) == MimeType(path, info, parseDate)
         == LastModified(path, info, parseDate) == FileSize(path, info, parseDate)
         == GetMetadata(path, info, parseDate)
  {
  }
}

=== FILE: phpint.dfy ===
/** PHP `intval` on a string, as `getMetadata` applies it to the size header:
    leading white space, an optional sign and the longest run of decimal digits
    that follows; anything after the digits is ignored, and a string with no such
    digits gives 0. A value beyond the 64-bit range is read as a double and capped
    to the range, except that one too large for a double gives 0. */
module PhpInt {
  import opened Text

  /** `PHP_INT_MAX` on a 64-bit build. */
  const IntMax: int := 0x7FFF_FFFF_FFFF_FFFF
  /** `PHP_INT_MIN` on a 64-bit build. */
  const IntMin: int := -0x8000_0000_0000_0000

  predicate IsDigit(c: char) {
    '0' <= c <= '9'
  }

  /** The white space PHP skips before a number: space, tab, line feed, carriage
      return, vertical tab and form feed. */
  predicate IsSpace(c: char) {
    c == ' ' || c == '\t' || c == '\n' || c == '\r' || c as int == 11 || c as int == 12
  }

  predicate AllSpace(s: string) {
    forall i :: 0 <= i < |s| ==> IsSpace(s[i])
  }

  predicate AllDigits(s: string) {
    forall i :: 0 <= i < |s| ==> IsDigit(s[i])
  }

  /** `s` without its leading white space. */
  function SkipSpace(s: string): (r: string)
    ensures |r| <= |s| && r == s[|s| - |r|..]
    ensures AllSpace(s[..|s| - |r|])
    ensures r == [] || !IsSpace(r[0])
    decreases |s|
  {
    if |s| > 0 && IsSpace(s[0]) then SkipSpace(s[1..]) else s
  }

  /** The longest prefix of `s` made of decimal digits. */
  function LeadingDigits(s: string): (r: string)
    ensures |r| <= |s| && r == s[..|r|]
    ensures AllDigits(r)
    ensures |r| < |s| ==> !IsDigit(s[|r|])
    decreases |s|
  {
    if |s| > 0 && IsDigit(s[0]) then [s[0]] + LeadingDigits(s[1..]) else []
  }

  /** The number a run of decimal digits denotes. */
  function DigitsValue(ds: string): (n: nat)
    requires AllDigits(ds)
    decreases |ds|
  {
    if ds == [] then 0
    else DigitsValue(ds[..|ds| - 1]) * 10 + (ds[|ds| - 1] as int - '0' as int)
  }

  /** The least magnitude whose decimal text PHP's `zend_strtod` rounds to an infinite
      double: 2^1024 - 2^970, half-way between the largest double, 2^1024 - 2^971,
      and 2^1024. In hexadecimal it is `fffffffffffffc` followed by 242 zeros: 256 digits,
      written below in 64 groups of four. */
  const DoubleOverflow: int :=
    0xffff_ffff_ffff_fc00_0000_0000_0000_0000_0000_0000_0000_0000_0000_0000_0000_0000_0000_0000_0000_0000_0000_0000_0000_0000_0000_0000_0000_0000_0000_0000_0000_0000_0000_0000_0000_0000_0000_0000_0000_0000_0000_0000_0000_0000_0000_0000_0000_0000_0000_0000_0000_0000_0000_0000_0000_0000_0000_0000_0000_0000_0000_0000_0000_0000

  /** How PHP turns the number a numeric string denotes into an integer. Within the
      64-bit range it is exact. Beyond it the text is read as a double and capped
      (`zend_dval_to_lval_cap`): a finite double gives the nearer bound, an infinite
      one gives 0. */
  function Saturate(n: int): (r: int)
    ensures IntMin <= r <= IntMax
    ensures IntMin <= n <= IntMax ==> r == n
    ensures IntMax < n < DoubleOverflow ==> r == IntMax
    ensures 0 - DoubleOverflow < n < IntMin ==> r == IntMin
    ensures n >= DoubleOverflow || n <= 0 - DoubleOverflow ==> r == 0
  {
    if n >= DoubleOverflow || n <= 0 - DoubleOverflow then 0
    else if n > IntMax then IntMax
    else if n < IntMin then IntMin
    else n
  }

  /** The number at the start of `t`: an optional sign and the digits after it
      (none giving 0), read without bound. */
  function LeadingNumber(t: string): int {
    if |t| > 0 && t[0] == '-' then 0 - DigitsValue(LeadingDigits(t[1..]))
    else if |t| > 0 && t[0] == '+' then DigitsValue(LeadingDigits(t[1..]))
    else DigitsValue(LeadingDigits(t))
  }

  /** PHP `intval` of a string in base 10. */
  function IntVal(s: string): (r: int)
    ensures IntMin <= r <= IntMax
  {
    Saturate(LeadingNumber(SkipSpace(s)))
  }

  /** The decimal digits of `n`, without leading zeros. */
  function Decimal(n: nat): (ds: string)
    ensures |ds| > 0 && AllDigits(ds)
    ensures DigitsValue(ds) == n
    ensures ds[0] == '0' ==> n == 0 && |ds| == 1
    decreases n
  {
    if n < 10 then [('0' as int + n) as char]
    else Decimal(n / 10) + [('0' as int + n % 10) as char]
  }

  /** The decimal text of an integer, with a `-` when it is negative. */
  function DecimalText(n: int): string {
    if n < 0 then "-" + Decimal(-n) else Decimal(n)
  }

  /** A run of digits followed by something that is not a digit is read up to its end. */
  lemma {:induction false} LeadingDigitsOf(ds: string, rest: string)
    requires AllDigits(ds)
    requires rest == [] || !IsDigit(rest[0])
    ensures LeadingDigits(ds + rest) == ds
    decreases |ds|
  {
    if ds != [] {
      assert (ds + rest)[1..] == ds[1..] + rest;
      LeadingDigitsOf(ds[1..], rest);
    }
  }

  /** Without leading white space, `intval` is the saturated leading number. */
  lemma IntValUnspaced(s: string)
    requires s == [] || !IsSpace(s[0])
    ensures IntVal(s) == Saturate(LeadingNumber(s))
  {
    assert SkipSpace(s) == s;
  }

  /** The leading number of a decimal text followed by a non-digit is the number written. */
  lemma LeadingNumberOfText(n: int, rest: string)
    requires rest == [] || !IsDigit(rest[0])
    ensures LeadingNumber(DecimalText(n) + rest) == n
  {
    if n < 0 {
      LeadingNumberOfNegative(Decimal(-n), rest);
    } else {
      LeadingNumberOfDigits(Decimal(n), rest);
    }
  }

  /** Digits followed by a non-digit: the number they denote. */
  lemma LeadingNumberOfDigits(ds: string, rest: string)
    requires |ds| > 0 && AllDigits(ds)
    requires rest == [] || !IsDigit(rest[0])
    ensures LeadingNumber(ds + rest) == DigitsValue(ds)
  {
    assert (ds + rest)[0] == ds[0];
    LeadingDigitsOf(ds, rest);
  }

  /** A minus sign, digits and a non-digit: the negated number. */
  lemma LeadingNumberOfNegative(ds: string, rest: string)
    requires AllDigits(ds)
    requires rest == [] || !IsDigit(rest[0])
    ensures LeadingNumber("-" + ds + rest) == 0 - DigitsValue(ds)
  {
    var s := "-" + ds + rest;
    assert s[0] == '-' && s[1..] == ds + rest;
    LeadingDigitsOf(ds, rest);
  }

  /** A plus sign, digits and a non-digit: the number itself. */
  lemma LeadingNumberOfPositive(ds: string, rest: string)
    requires AllDigits(ds)
    requires rest == [] || !IsDigit(rest[0])
    ensures LeadingNumber("+" + ds + rest) == DigitsValue(ds)
  {
    var s := "+" + ds + rest;
    assert s[0] == '+' && s[1..] == ds + rest;
    LeadingDigitsOf(ds, rest);
  }

  /** `intval` reads back the decimal text of every 64-bit integer, whatever
      non-digit text follows it. */
  lemma IntValRoundTrip(n: int, rest: string)
    requires IntMin <= n <= IntMax
    requires rest == [] || !IsDigit(rest[0])
    ensures IntVal(DecimalText(n) + rest) == n
  {
    var s := DecimalText(n) + rest;
    assert s[0] == DecimalText(n)[0];
    IntValUnspaced(s);
    LeadingNumberOfText(n, rest);
  }

  /** A size beyond `PHP_INT_MAX`, but within the range of a double, is read as `PHP_INT_MAX`. */
  lemma IntValSaturates(n: nat)
    requires IntMax < n < DoubleOverflow
    ensures IntVal(Decimal(n)) == IntMax
  {
    var s := Decimal(n);
    assert IsDigit(s[0]);
    IntValUnspaced(s);
    LeadingNumberOfText(n, []);
    assert DecimalText(n) + [] == s;
  }

  /** Leading white space is skipped entirely, however much of it there is. */
  lemma {:induction false} SkipSpacePrefix(ws: string, s: string)
    requires AllSpace(ws)
    ensures SkipSpace(ws + s) == SkipSpace(s)
    decreases |ws|
  {
    if ws != [] {
      assert (ws + s)[0] == ws[0] && (ws + s)[1..] == ws[1..] + s;
      SkipSpacePrefix(ws[1..], s);
    } else {
      assert ws + s == s;
    }
  }

  /** White space before the number does not change what `intval` reads. */
  lemma IntValSkipsSpace(ws: string, s: string)
    requires AllSpace(ws)
    ensures IntVal(ws + s) == IntVal(s)
  {
    SkipSpacePrefix(ws, s);
  }

  /** Zeros in front of a run of digits do not change the number it denotes. */
  lemma {:induction false} DigitsValueLeadingZeros(zeros: string, ds: string)
    requires AllAre(zeros, '0') && AllDigits(ds)
    ensures AllDigits(zeros + ds) && DigitsValue(zeros + ds) == DigitsValue(ds)
    decreases |ds|, |zeros|
  {
    var s := zeros + ds;
    assert AllDigits(s) by {
      forall i | 0 <= i < |s| ensures IsDigit(s[i]) {
        if i < |zeros| { assert s[i] == zeros[i]; } else { assert s[i] == ds[i - |zeros|]; }
      }
    }
    if ds != [] {
      assert s[..|s| - 1] == zeros + ds[..|ds| - 1];
      assert s[|s| - 1] == ds[|ds| - 1];
      DigitsValueLeadingZeros(zeros, ds[..|ds| - 1]);
    } else if zeros != [] {
      assert s[..|s| - 1] == zeros[..|zeros| - 1] + ds;
      assert s[|s| - 1] == zeros[|zeros| - 1] == '0';
      DigitsValueLeadingZeros(zeros[..|zeros| - 1], ds);
    }
  }

  /** A number padded with leading zeros is read as the number itself. */
  lemma IntValLeadingZeros(zeros: string, n: nat, rest: string)
    requires AllAre(zeros, '0') && n <= IntMax
    requires rest == [] || !IsDigit(rest[0])
    ensures IntVal(zeros + Decimal(n) + rest) == n
  {
    var ds := zeros + Decimal(n);
    DigitsValueLeadingZeros(zeros, Decimal(n));
    assert (ds + rest)[0] == ds[0] && IsDigit(ds[0]);
    IntValUnspaced(ds + rest);
    LeadingNumberOfDigits(ds, rest);
  }

  /** An explicit `+` sign is read past: the number that follows it. */
  lemma IntValPlusSign(n: nat, rest: string)
    requires n <= IntMax
    requires rest == [] || !IsDigit(rest[0])
    ensures IntVal("+" + Decimal(n) + rest) == n
  {
    var s := "+" + Decimal(n) + rest;
    assert s[0] == '+';
    IntValUnspaced(s);
    LeadingNumberOfPositive(Decimal(n), rest);
  }

  /** A negative size below `PHP_INT_MIN`, but within the range of a double, is read as `PHP_INT_MIN`. */
  lemma IntValSaturatesBelow(n: nat)
    requires 0 - DoubleOverflow < 0 - n < IntMin
    ensures IntVal("-" + Decimal(n)) == IntMin
  {
    var s := "-" + Decimal(n);
    assert s[0] == '-';
    IntValUnspaced(s);
    LeadingNumberOfNegative(Decimal(n), []);
    assert "-" + Decimal(n) + [] == s;
  }

  /** Digits too many for a double, with or without a `-`, are read as 0. */
  lemma IntValBeyondDouble(n: nat, rest: string)
    requires n >= DoubleOverflow
    requires rest == [] || !IsDigit(rest[0])
    ensures IntVal(Decimal(n) + rest) == 0
    ensures IntVal("-" + Decimal(n) + rest) == 0
  {
    var p := Decimal(n) + rest;
    assert p[0] == Decimal(n)[0] && IsDigit(p[0]);
    IntValUnspaced(p);
    LeadingNumberOfDigits(Decimal(n), rest);
    var m := "-" + Decimal(n) + rest;
    assert m[0] == '-';
    IntValUnspaced(m);
    LeadingNumberOfNegative(Decimal(n), rest);
  }

  /** A string with no number at its start, after white space, is read as 0. */
  lemma IntValNonNumeric(s: string)
    requires var t := SkipSpace(s);
      t == [] || (!IsDigit(t[0]) && t[0] != '-' && t[0] != '+')
    ensures IntVal(s) == 0
  {
  }
}

=== FILE: store.dfy ===
/** The object-store operations of `UpyunAdapter`, against a stand-in for the
    storage service: the bucket is a map from path to content, and each request
    either reaches the service or fails on the way (`Network`). The adapter's own
    logic here is small: `rename` is a copy followed by a delete, `fileExists` and
    `directoryExists` are the same check, and visibility is not supported. */
module Store {
  import opened Wrappers

  type Content = string

  /** The bucket's objects, by path. */
  type Bucket = map<string, Content>

  /** Whether a request gets through to the storage service; decided outside the adapter. */
  datatype Network = Up | Down(reason: string)

  /** The errors the storage service raises and the adapter passes on unchanged. */
  datatype Failure = NotFound(path: string) | Unavailable(reason: string)

  /** The bucket after a request, and the error it raised, if any. A raised error
      does not undo what earlier requests of the same operation did. */
  datatype Outcome = Outcome(bucket: Bucket, error: Option<Failure>)

  /** The object at `path`, if any. */
  function Lookup(b: Bucket, path: string): Option<Content> {
    if path in b then Some(b[path]) else None
  }

  /** PHP `copy`: the service copies `source` to `destination`, replacing what was there. */
  function Copy(b: Bucket, source: string, destination: string, net: Network): (o: Outcome)
    ensures o.error.None? <==> net.Up? && source in b
    ensures o.error.Some? ==> o.bucket == b
    ensures net.Down? ==> o.error == Some(Unavailable(net.reason))
    ensures o.error.None? ==> Lookup(o.bucket, destination) == Lookup(b, source)
    ensures forall p :: p != destination ==> Lookup(o.bucket, p) == Lookup(b, p)
  {
    if net.Down? then Outcome(b, Some(Unavailable(net.reason)))
    else if source !in b then Outcome(b, Some(NotFound(source)))
    else Outcome(b[destination := b[source]], None)
  }

  /** PHP `delete`: the service removes the object at `path`. */
  function Delete(b: Bucket, path: string, net: Network): (o: Outcome)
    ensures o.error.None? <==> net.Up? && path in b
    ensures o.error.Some? ==> o.bucket == b
    ensures net.Down? ==> o.error == Some(Unavailable(net.reason))
    ensures o.error.None? ==> Lookup(o.bucket, path) == None
    ensures forall p :: p != path ==> Lookup(o.bucket, p) == Lookup(b, p)
  {
    if net.Down? then Outcome(b, Some(Unavailable(net.reason)))
    else if path !in b then Outcome(b, Some(NotFound(path)))
    else Outcome(b - {path}, None)
  }

  /** PHP `rename`: a copy to the new path, then a delete of the old one. The two
      requests are separate; nothing undoes the copy when the delete fails. */
  function Rename(b: Bucket, source: string, destination: string, copyNet: Network, deleteNet: Network): (o: Outcome)
    ensures o.error.None? <==> copyNet.Up? && deleteNet.Up? && source in b
    ensures forall p :: p != source && p != destination ==> Lookup(o.bucket, p) == Lookup(b, p)
  {
    var copied := Copy(b, source, destination, copyNet);
    if copied.error.Some? then copied else Delete(copied.bucket, source, deleteNet)
  }

  /** When both requests succeed, the content moves from the old path to the new one
      and every other object stays as it was. */
  lemma RenameMovesContent(b: Bucket, source: string, destination: string)
    requires source != destination && source in b
    ensures var o := Rename(b, source, destination, Up, Up);
      && o.error == None
      && Lookup(o.bucket, destination) == Some(b[source])
      && Lookup(o.bucket, source) == None
      && forall p :: p != source && p != destination ==> Lookup(o.bucket, p) == Lookup(b, p)
  {
  }

  /** When the delete fails after the copy succeeded, the delete's error is raised and
      the object is left at both paths. */
  lemma RenamePartialFailure(b: Bucket, source: string, destination: string, reason: string)
    requires source in b
    ensures var o := Rename(b, source, destination, Up, Down(reason));
      && o.error == Some(Unavailable(reason))
      && Lookup(o.bucket, source) == Some(b[source])
      && Lookup(o.bucket, destination) == Some(b[source])
  {
  }

  /** When the copy fails, nothing changes and the delete is never sent. */
  lemma RenameCopyFailure(b: Bucket, source: string, destination: string, copyNet: Network, deleteNet: Network)
    requires copyNet.Down? || source !in b
    ensures Rename(b, source, destination, copyNet, deleteNet) == Copy(b, source, destination, copyNet)
    ensures Rename(b, source, destination, copyNet, deleteNet).bucket == b
  {
  }

  /** Renaming an object onto its own path deletes it. */
  lemma RenameOntoItselfDeletes(b: Bucket, path: string)
    requires path in b
    ensures var o := Rename(b, path, path, Up, Up);
      o.error == None && Lookup(o.bucket, path) == None && o.bucket == b - {path}
  {
  }

  /** The service's own `move`, which the adapter's `move` forwards to: one request
      that puts the content at the new path and removes the old one. */
  function Move(b: Bucket, source: string, destination: string, net: Network): (o: Outcome)
    ensures o.error.None? <==> net.Up? && source in b
    ensures o.error.Some? ==> o.bucket == b
    ensures o.error.None? ==> Lookup(o.bucket, destination) == Lookup(b, source)
    ensures o.error.None? && source != destination ==> Lookup(o.bucket, source) == None
    ensures forall p :: p != source && p != destination ==> Lookup(o.bucket, p) == Lookup(b, p)
  {
    if net.Down? then Outcome(b, Some(Unavailable(net.reason)))
    else if source !in b then Outcome(b, Some(NotFound(source)))
    else Outcome((b - {source})[destination := b[source]], None)
  }

  /** Between distinct paths and with every request succeeding, `rename` ends where
      `move` does; they differ in how they fail. */
  lemma RenameAgreesWithMove(b: Bucket, source: string, destination: string)
    requires source != destination
    ensures Rename(b, source, destination, Up, Up) == Move(b, source, destination, Up)
  {
    if source in b {
      assert Rename(b, source, destination, Up, Up).bucket == Move(b, source, destination, Up).bucket;
    }
  }

  /** PHP `write` (and `writeStream`, `update`, `updateStream`, which call it). */
  function Write(b: Bucket, path: string, contents: Content, net: Network): (o: Outcome)
    ensures o.error.None? <==> net.Up?
    ensures o.error.Some? ==> o.bucket == b
    ensures o.error.None? ==> Lookup(o.bucket, path) == Some(contents)
    ensures forall p :: p != path ==> Lookup(o.bucket, p) == Lookup(b, p)
  {
    if net.Down? then Outcome(b, Some(Unavailable(net.reason)))
    else Outcome(b[path := contents], None)
  }

  /** PHP `read`: the object's content. */
  function Read(b: Bucket, path: string, net: Network): (r: Result<Content, Failure>)
    ensures r.Ok? <==> net.Up? && path in b
    ensures r.Ok? ==> r.value == b[path]
    ensures net.Up? && path !in b ==> r == Err(NotFound(path))
  {
    if net.Down? then Err(Unavailable(net.reason))
    else if path !in b then Err(NotFound(path))
    else Ok(b[path])
  }

  /** What is written is read back unchanged. */
  lemma ReadAfterWrite(b: Bucket, path: string, contents: Content)
    ensures Read(Write(b, path, contents, Up).bucket, path, Up) == Ok(contents)
  {
  }

  /** PHP `has`: whether an object exists at `path`. */
  function Has(b: Bucket, path: string, net: Network): (r: Result<bool, Failure>)
    ensures net.Up? <==> r.Ok?
    ensures r.Ok? ==> (r.value <==> path in b)
  {
    if net.Down? then Err(Unavailable(net.reason)) else Ok(path in b)
  }

  /** PHP `fileExists`: the same check as `has`. */
  function FileExists(b: Bucket, path: string, net: Network): (r: Result<bool, Failure>)
    ensures net.Up? ==> r == Ok(path in b)
  {
    Has(b, path, net)
  }

  /** PHP `directoryExists`: the same check as `has`; files and directories are not told apart. */
  function DirectoryExists(b: Bucket, path: string, net: Network): (r: Result<bool, Failure>)
    ensures net.Up? ==> r == Ok(path in b)
  {
    Has(b, path, net)
  }

  /** Asking whether a path is a file or a directory always gives the same answer. */
  lemma ExistenceChecksAgree(b: Bucket, path: string, net: Network)
    ensures FileExists(b, path, net) == DirectoryExists(b, path, net) == Has(b, path, net)
  {
  }

  /** PHP `getVisibility`: every path is reported visible. */
  function GetVisibility(b: Bucket, path: string): (r: bool)
    ensures r
  {
    true
  }

  /** PHP `setVisibility`: ignored; the bucket is left as it is. */
  function SetVisibility(b: Bucket, path: string, visibility: string): (b': Bucket)
    ensures forall p :: Lookup(b', p) == Lookup(b, p)
  {
    b
  }

  /** Setting a visibility changes nothing that can be observed afterwards. */
  lemma SetVisibilityUnobservable(b: Bucket, path: string, visibility: string, other: string, net: Network)
    ensures var b' := SetVisibility(b, path, visibility);
      && GetVisibility(b', other) == GetVisibility(b, other)
      && Read(b', other, net) == Read(b, other, net)
      && Has(b', other, net) == Has(b, other, net)
  {
  }
}

=== FILE: text.dfy ===
/** String helpers with the meaning PHP gives them in the adapter: ASCII case
    folding (as `stripos` does), and `ltrim`/`rtrim` with a one-character mask. */
module Text {

  /** ASCII lower-casing; every other character is left alone. */
  function Lower(c: char): (r: char)
    ensures 'A' <= c <= 'Z' ==> r as int == c as int + 32
    ensures !('A' <= c <= 'Z') ==> r == c
  {
    if 'A' <= c <= 'Z' then (c as int + 32) as char else c
  }

  /** `s` begins with `prefix` when letters are compared without regard to case. */
  predicate StartsWithIgnoreCase(s: string, prefix: string) {
    |prefix| <= |s| && forall i :: 0 <= i < |prefix| ==> Lower(s[i]) == Lower(prefix[i])
  }

  /** `s` and `t` spell the same word up to letter case. */
  predicate EqualsIgnoreCase(s: string, t: string) {
    |s| == |t| && StartsWithIgnoreCase(s, t)
  }

  /** Every character of `s` is `c`. */
  predicate AllAre(s: string, c: char) {
    forall i :: 0 <= i < |s| ==> s[i] == c
  }

  /** `s` contains some character other than `c`. */
  predicate HasOtherThan(s: string, c: char) {
    exists i :: 0 <= i < |s| && s[i] != c
  }

  /** PHP `rtrim(s, c)` for a one-character mask: `s` with every trailing `c`
      removed. The result is the part of `s` before its final run of `c`. */
  function TrimTrailing(s: string, c: char): (r: string)
    ensures |r| <= |s| && r == s[..|r|]
    ensures AllAre(s[|r|..], c)
    ensures r == [] || r[|r| - 1] != c
    decreases |s|
  {
    if |s| > 0 && s[|s| - 1] == c then TrimTrailing(s[..|s| - 1], c) else s
  }

  /** PHP `ltrim(s, c)` for a one-character mask: `s` with every leading `c`
      removed. The result is the part of `s` after its first run of `c`. */
  function TrimLeading(s: string, c: char): (r: string)
    ensures |r| <= |s| && r == s[|s| - |r|..]
    ensures AllAre(s[..|s| - |r|], c)
    ensures r == [] || r[0] != c
    decreases |s|
  {
    if |s| > 0 && s[0] == c then TrimLeading(s[1..], c) else s
  }

  /** A position inside a tail made only of `c` holds `c`. */
  lemma InTail(s: string, k: nat, j: nat, c: char)
    requires k <= |s| && AllAre(s[k..], c) && j < |s|
    ensures k <= j ==> s[j] == c
  {
    if k <= j {
      assert s[k..][j - k] == s[j];
    }
  }

  /** A position inside a head made only of `c` holds `c`. */
  lemma InHead(s: string, k: nat, j: nat, c: char)
    requires k <= |s| && AllAre(s[..k], c) && j < |s|
    ensures j < k ==> s[j] == c
  {
    if j < k {
      assert s[..k][j] == s[j];
    }
  }

  /** The contract of `TrimTrailing` determines its result: any prefix of `s`
      that is followed only by `c` and does not itself end in `c` is it. */
  lemma {:induction false} TrimTrailingUnique(s: string, c: char, t: string)
    requires |t| <= |s| && t == s[..|t|]
    requires AllAre(s[|t|..], c)
    requires t == [] || t[|t| - 1] != c
    ensures TrimTrailing(s, c) == t
  {
    var r := TrimTrailing(s, c);
    if |t| > 0 {
      InTail(s, |r|, |t| - 1, c);
    }
    if |r| > 0 {
      InTail(s, |t|, |r| - 1, c);
    }
  }

  /** The contract of `TrimLeading` determines its result. */
  lemma {:induction false} TrimLeadingUnique(s: string, c: char, t: string)
    requires |t| <= |s| && t == s[|s| - |t|..]
    requires AllAre(s[..|s| - |t|], c)
    requires t == [] || t[0] != c
    ensures TrimLeading(s, c) == t
  {
    var r := TrimLeading(s, c);
    if |t| > 0 {
      InHead(s, |s| - |r|, |s| - |t|, c);
    }
    if |r| > 0 {
      InHead(s, |s| - |t|, |s| - |r|, c);
    }
  }

  /** Trimming the end of `s + t` only reaches into `s` when `t` holds nothing but `c`. */
  lemma TrimTrailingAppend(s: string, t: string, c: char)
    requires HasOtherThan(t, c)
    ensures TrimTrailing(s + t, c) == s + TrimTrailing(t, c)
  {
    var rt := TrimTrailing(t, c);
    var w := s + rt;
    assert (s + t)[|w|..] == t[|rt|..];
    TrimTrailingUnique(s + t, c, w);
  }

  /** Trimming the start of `s + t` only reaches into `t` when `s` holds nothing but `c`. */
  lemma TrimLeadingPrepend(s: string, t: string, c: char)
    requires HasOtherThan(s, c)
    ensures TrimLeading(s + t, c) == TrimLeading(s, c) + t
  {
    var rs := TrimLeading(s, c);
    var w := rs + t;
    assert (s + t)[..|s + t| - |w|] == s[..|s| - |rs|];
    TrimLeadingUnique(s + t, c, w);
  }

  /** When `s` holds nothing but `c`, trimming the start of `s + t` trims `t` alone. */
  lemma TrimLeadingAllPrefix(s: string, t: string, c: char)
    requires AllAre(s, c)
    ensures TrimLeading(s + t, c) == TrimLeading(t, c)
  {
    var rt := TrimLeading(t, c);
    var st := s + t;
    assert st[..|st| - |rt|] == s + t[..|t| - |rt|];
    TrimLeadingUnique(st, c, rt);
  }
}

=== FILE: url.dfy ===
/** URL composition of `UpyunAdapter`: `normalizeHost` turns the configured
    serving domain into a base URL with a scheme and exactly one trailing slash,
    and `getUrl` appends an object path to that base. */
module Url {
  import opened Text

  /** The protocol the adapter uses when its constructor is given none. */
  const DefaultProtocol: string := "http"

  /** The adapter's connection parameters: its five constructor arguments,
      stored as given and never validated or changed afterwards. */
  datatype Config = Config(bucket: string, operator: string, password: string, domain: string, protocol: string)

  /** The adapter constructor with its protocol argument omitted. */
  function NewConfig(bucket: string, operator: string, password: string, domain: string): (c: Config)
    ensures c.protocol == "http"
    ensures c.domain == domain && c.bucket == bucket && c.operator == operator && c.password == password
  {
    Config(bucket, operator, password, domain, DefaultProtocol)
  }

  /** The domain already begins with `https://` or `http://`, in any letter case. */
  predicate HasScheme(domain: string) {
    StartsWithIgnoreCase(domain, "https://") || StartsWithIgnoreCase(domain, "http://")
  }

  /** A protocol that, followed by `://`, is itself recognised as a scheme. */
  predicate IsWebProtocol(protocol: string) {
    EqualsIgnoreCase(protocol, "http") || EqualsIgnoreCase(protocol, "https")
  }

  /** Length of the domain's own `https://` or `http://` prefix; 0 when it has none. */
  function SchemeLength(domain: string): (n: nat)
    ensures HasScheme(domain) <==> n > 0
    ensures n > 0 ==> (n == 7 || n == 8) && n <= |domain|
    ensures n > 0 ==> domain[n - 3] == ':' && domain[n - 2] == '/' && domain[n - 1] == '/'
  {
    if StartsWithIgnoreCase(domain, "https://") then 8
    else if StartsWithIgnoreCase(domain, "http://") then 7
    else 0
  }

  /** What follows the domain's scheme prefix (the whole domain when it has none). */
  function HostPart(domain: string): string {
    domain[SchemeLength(domain)..]
  }

  /** `s` ends in one `/` that is not preceded by another. */
  predicate EndsInOneSlash(s: string) {
    |s| >= 2 && s[|s| - 1] == '/' && s[|s| - 2] != '/'
  }

  /** A character other than `/` at position `k` survives trimming the trailing slashes. */
  lemma TrimKeeps(s: string, k: nat)
    requires k < |s| && s[k] != '/'
    ensures |TrimTrailing(s, '/')| > k
  {
  }

  /** Trimming the trailing slashes of `protocol + "://" + domain`: it stops inside the
      domain when the domain has a character other than `/`, and at the colon otherwise. */
  lemma TrimPrefixed(protocol: string, domain: string)
    ensures HasOtherThan(domain, '/') ==>
      TrimTrailing(protocol + "://" + domain, '/') == protocol + "://" + TrimTrailing(domain, '/')
    ensures !HasOtherThan(domain, '/') ==>
      TrimTrailing(protocol + "://" + domain, '/') == protocol + ":"
  {
    var x := protocol + "://" + domain;
    if HasOtherThan(domain, '/') {
      TrimTrailingAppend(protocol + "://", domain, '/');
    } else {
      assert x[..|protocol| + 1] == protocol + ":";
      assert x[|protocol| + 1..] == "//" + domain;
      TrimTrailingUnique(x, '/', protocol + ":");
    }
  }

  /** The colon of the scheme, whichever one is used, is never trimmed away. */
  lemma ColonSurvives(protocol: string, domain: string)
    ensures HasScheme(domain) ==> |TrimTrailing(domain, '/')| > SchemeLength(domain) - 3
    ensures |TrimTrailing(protocol + "://" + domain, '/')| > |protocol|
  {
    if HasScheme(domain) {
      TrimKeeps(domain, SchemeLength(domain) - 3);
    }
    TrimKeeps(protocol + "://" + domain, |protocol|);
  }

  /** PHP `normalizeHost`: prefix `protocol://` unless the domain already carries an
      `http(s)://` scheme, then replace all trailing slashes by exactly one. */
  function NormalizeHost(protocol: string, domain: string): (r: string)
    ensures EndsInOneSlash(r)
    ensures HasScheme(domain) ==> r == TrimTrailing(domain, '/') + "/"
    ensures !HasScheme(domain) && HasOtherThan(domain, '/') ==>
      r == protocol + "://" + TrimTrailing(domain, '/') + "/"
    ensures !HasScheme(domain) && !HasOtherThan(domain, '/') ==> r == protocol + ":/"
  {
    var withScheme := if HasScheme(domain) then domain else protocol + "://" + domain;
    TrimPrefixed(protocol, domain);
    ColonSurvives(protocol, domain);
    TrimTrailing(withScheme, '/') + "/"
  }

  /** The text before the final slash always holds the colon of a scheme, which is
      why it can never be empty or end in a slash. */
  lemma HostKeepsColon(protocol: string, domain: string)
    ensures var r := NormalizeHost(protocol, domain);
      ':' in r[..|r| - 1]
  {
    ColonSurvives(protocol, domain);
    var r := NormalizeHost(protocol, domain);
    if HasScheme(domain) {
      assert r[SchemeLength(domain) - 3] == ':';
    } else {
      var x := protocol + "://" + domain;
      assert x[|protocol|] == ':';
      assert r[|protocol|] == TrimTrailing(x, '/')[|protocol|] == ':';
    }
  }

  /** PHP `getUrl`: the normalised domain followed by the object path, unchanged. */
  function GetUrl(config: Config, path: string): (r: string)
    ensures |r| > |path| + 1 && r[|r| - |path|..] == path
    ensures r[..|r| - |path|] == NormalizeHost(config.protocol, config.domain)
    ensures EndsInOneSlash(r[..|r| - |path|])
    ensures |path| > 0 && path[0] == '/' ==> r[|r| - |path| - 1..|r| - |path| + 1] == "//"
  {
    NormalizeHost(config.protocol, config.domain) + path
  }

  /** A domain with its own scheme and some host text keeps that scheme verbatim,
      whatever the configured protocol; only its trailing slashes are normalised. */
  lemma SchemedDomainKeepsPrefix(protocol: string, domain: string)
    requires HasScheme(domain) && HasOtherThan(HostPart(domain), '/')
    ensures var n := SchemeLength(domain);
      NormalizeHost(protocol, domain) == domain[..n] + TrimTrailing(HostPart(domain), '/') + "/"
    ensures HasScheme(NormalizeHost(protocol, domain))
    ensures forall other :: NormalizeHost(other, domain) == NormalizeHost(protocol, domain)
  {
    var n := SchemeLength(domain);
    assert domain == domain[..n] + HostPart(domain);
    TrimTrailingAppend(domain[..n], HostPart(domain), '/');
    var r := NormalizeHost(protocol, domain);
    assert r[..n] == domain[..n];
    if n == 8 {
      assert StartsWithIgnoreCase(r, "https://");
    } else {
      assert StartsWithIgnoreCase(r, "http://");
    }
  }

  /** A string that already has a scheme and ends in exactly one slash is left as it is. */
  lemma SchemedHostIsFixed(protocol: string, h: string)
    requires HasScheme(h) && EndsInOneSlash(h)
    ensures NormalizeHost(protocol, h) == h
  {
    TrimTrailingUnique(h, '/', h[..|h| - 1]);
  }

  /** Without a scheme of its own, a normalised host is prefixed once more on every
      further application: the configured protocol is not recognised as a scheme. */
  lemma ReapplyPrefixes(protocol: string, h: string)
    requires !HasScheme(h) && EndsInOneSlash(h)
    ensures NormalizeHost(protocol, h) == protocol + "://" + h
  {
    TrimTrailingUnique(h, '/', h[..|h| - 1]);
    assert h[|h| - 2] != '/';
  }

  /** Normalising twice gives the same as once exactly when the first result has a scheme. */
  lemma IdempotentIffSchemed(protocol: string, domain: string)
    ensures var r := NormalizeHost(protocol, domain);
      NormalizeHost(protocol, r) == r <==> HasScheme(r)
  {
    var r := NormalizeHost(protocol, domain);
    if HasScheme(r) {
      SchemedHostIsFixed(protocol, r);
    } else {
      ReapplyPrefixes(protocol, r);
      assert |NormalizeHost(protocol, r)| > |r|;
    }
  }

  /** A scheme followed by nothing but slashes collapses to the scheme's name, a
      colon and one slash, which is no longer recognised as a scheme. */
  lemma BareSchemeCollapses(protocol: string, domain: string)
    requires HasScheme(domain) && !HasOtherThan(HostPart(domain), '/')
    ensures NormalizeHost(protocol, domain) == domain[..SchemeLength(domain) - 2] + "/"
    ensures !HasScheme(NormalizeHost(protocol, domain))
  {
    var n := SchemeLength(domain);
    assert domain[n - 2..] == "//" + HostPart(domain);
    TrimTrailingUnique(domain, '/', domain[..n - 2]);
    var r := NormalizeHost(protocol, domain);
    if n == 8 {
      assert Lower(r[4]) == Lower(domain[4]) == Lower('s');
    }
  }

  /** A domain with its own scheme is normalised idempotently exactly when something
      other than slashes follows the scheme; `http://` alone becomes `http:/`. */
  lemma IdempotentSchemedDomain(protocol: string, domain: string)
    requires HasScheme(domain)
    ensures var r := NormalizeHost(protocol, domain);
      NormalizeHost(protocol, r) == r <==> HasOtherThan(HostPart(domain), '/')
  {
    IdempotentIffSchemed(protocol, domain);
    if HasOtherThan(HostPart(domain), '/') {
      SchemedDomainKeepsPrefix(protocol, domain);
    } else {
      BareSchemeCollapses(protocol, domain);
    }
  }

  /** `http://` or `https://`, in the protocol's letter case, begins a scheme. */
  lemma WebProtocolIsScheme(protocol: string, rest: string)
    requires IsWebProtocol(protocol)
    ensures HasScheme(protocol + "://" + rest)
  {
    var x := protocol + "://" + rest;
    var w := if |protocol| == 4 then "http://" else "https://";
    assert x[..|w|] == protocol + "://";
    assert StartsWithIgnoreCase(x, w);
  }

  /** `http:/` and `https:/` are too short to begin with a scheme. */
  lemma WebProtocolColonSlash(protocol: string)
    requires IsWebProtocol(protocol)
    ensures !HasScheme(protocol + ":/")
  {
    var x := protocol + ":/";
    if |protocol| == 5 {
      assert Lower(x[4]) == Lower(protocol[4]) == Lower('s');
    }
  }

  /** A domain without a scheme, under protocol `http` or `https` in any case, is
      normalised idempotently exactly when it has a character other than `/`. */
  lemma IdempotentPlainDomain(protocol: string, domain: string)
    requires IsWebProtocol(protocol) && !HasScheme(domain)
    ensures var r := NormalizeHost(protocol, domain);
      NormalizeHost(protocol, r) == r <==> HasOtherThan(domain, '/')
  {
    IdempotentIffSchemed(protocol, domain);
    if HasOtherThan(domain, '/') {
      WebProtocolIsScheme(protocol, TrimTrailing(domain, '/') + "/");
      assert NormalizeHost(protocol, domain) == protocol + "://" + (TrimTrailing(domain, '/') + "/");
    } else {
      WebProtocolColonSlash(protocol);
    }
  }

  /** Under protocol `http` or `https`, `normalizeHost` is idempotent on a domain
      exactly when the domain has a character other than `/` after any scheme. */
  lemma Idempotence(protocol: string, domain: string)
    requires IsWebProtocol(protocol)
    ensures var r := NormalizeHost(protocol, domain);
      NormalizeHost(protocol, r) == r <==> HasOtherThan(HostPart(domain), '/')
  {
    if HasScheme(domain) {
      IdempotentSchemedDomain(protocol, domain);
    } else {
      IdempotentPlainDomain(protocol, domain);
    }
  }

  /** An empty domain normalises to `http:/`, which a second application turns into `http://http:/`. */
  lemma EmptyDomainNotIdempotent()
    ensures NormalizeHost("http", "") == "http:/"
    ensures NormalizeHost("http", "http:/") == "http://http:/"
  {
    ReapplyPrefixes("http", "http:/");
  }

  /** A domain whose first character is not an `h` or `H` has no scheme. */
  lemma NoSchemeWithoutH(domain: string)
    requires |domain| > 0 && Lower(domain[0]) != 'h'
    ensures !HasScheme(domain)
  {
  }

  /** A plain host name that does not end in `/` gets the protocol in front and one slash after. */
  lemma PlainHost(protocol: string, domain: string)
    requires |domain| > 0 && Lower(domain[0]) != 'h' && domain[|domain| - 1] != '/'
    ensures NormalizeHost(protocol, domain) == protocol + "://" + domain + "/"
  {
    NoSchemeWithoutH(domain);
    TrimTrailingUnique(domain, '/', domain);
    assert HasOtherThan(domain, '/');
  }

  /** `example.com` under protocol `p` becomes `p://example.com/`. */
  lemma ExampleComHost(protocol: string)
    ensures NormalizeHost(protocol, "example.com") == protocol + "://" + "example.com" + "/"
  {
    var d := "example.com";
    assert d[0] == 'e' && d[|d| - 1] == 'm';
    PlainHost(protocol, d);
  }

  /** A protocol other than `http(s)` is prepended again on each application:
      `example.com` becomes `ftp://example.com/`, then `ftp://ftp://example.com/`. */
  lemma ForeignProtocolRepeats()
    ensures var once := "ftp" + "://" + "example.com" + "/";
      && NormalizeHost("ftp", "example.com") == once
      && NormalizeHost("ftp", once) == "ftp" + "://" + once
  {
    ExampleComHost("ftp");
    var h := "ftp" + "://" + "example.com" + "/";
    assert h[0] == 'f' && h[|h| - 1] == '/' && h[|h| - 2] == 'm';
    NoSchemeWithoutH(h);
    ReapplyPrefixes("ftp", h);
  }

  /** The worked example: domain `example.com`, protocol `https`, path `a/b.txt`
      give `https://example.com/a/b.txt`. */
  lemma GetUrlExample()
    ensures GetUrl(Config("b", "o", "p", "example.com", "https"), "a/b.txt")
         == "https" + "://" + "example.com" + "/" + "a/b.txt"
  {
    ExampleComHost("https");
  }

  /** The URL for every configuration, case by case: a domain with its own scheme
      keeps it, any other domain gets the configured protocol, and a domain of
      slashes only leaves the protocol followed by `:/`. */
  lemma GetUrlCases(config: Config, path: string)
    ensures var d := config.domain;
      && (HasScheme(d) ==> GetUrl(config, path) == TrimTrailing(d, '/') + "/" + path)
      && (!HasScheme(d) && HasOtherThan(d, '/') ==>
            GetUrl(config, path) == config.protocol + "://" + TrimTrailing(d, '/') + "/" + path)
      && (!HasScheme(d) && !HasOtherThan(d, '/') ==>
            GetUrl(config, path) == config.protocol + ":/" + path)
  {
  }

  /** The path can be recovered from the URL: distinct paths give distinct URLs. */
  lemma GetUrlInjective(config: Config, p: string, q: string)
    requires GetUrl(config, p) == GetUrl(config, q)
    ensures p == q
  {
    var h := NormalizeHost(config.protocol, config.domain);
    assert p == GetUrl(config, p)[|h|..];
  }
}

=== FILE: wrappers.dfy ===
/** The `Option` and `Result` types used across the model: a PHP `null`-able value
    becomes an `Option`, and a call that may raise becomes a `Result`. */
module Wrappers {

  /** A value that may be absent (PHP `null`). */
  datatype Option<+T> = None | Some(value: T) {

    /** The wrapped value, or `default` when absent (PHP `??`). */
    function GetOr(default: T): T {
      match this
      case Some(v) => v
      case None => default
    }
  }

  /** The outcome of a call that either returns a value or raises an error. */
  datatype Result<+T, +E> = Ok(value: T) | Err(error: E)
}
